=== FILE: README.md ===
# Issue-alert condition-to-filter migration

A Dafny model of Sentry's data migration `0130_issue_alert_filter_all_orgs`.
It rewrites the stored data of every active issue-alert rule, so that the
three condition classes with a filter equivalent (tagged event, event
attribute, level) become filters, and it switches on `has_alert_filters` for
the projects it migrates.

How each rule is migrated depends on its `action_match` and on its conditions:

- **ModifyNone:** an `action_match` of "none" with an old condition (neither
  migratable nor already a filter). Every-event markers are dropped, the rest
  is rewritten, and the matches become "any" (actions) and "none" (filters).
- **Split:** an `action_match` of "any" with both a migratable and an old
  condition. The rule keeps its old conditions and is labelled " (1)". A new
  rule " (2)" in the same project takes the filters under "any"/"any".
- **Simple:** every other case. The conditions are rewritten in place. The
  old `action_match` becomes the `filter_match`, and "none" becomes "all".

The driver visits the active projects of the active organisations in order.
Each project is one transaction: when processing one of its rules raises, the
project's changes are rolled back, its id is logged, and the run goes on.

The model has four modules:

- `Wrappers` (`wrappers.dfy`): `Option`.
- `Conditions` (`conditions.dfy`): the constant table, the filter prefix, the
  every-event marker, `migrate_condition`, and the order-preserving selection
  performed by the list comprehensions.
- `AlertRules` (`rules.dfy`): the `Rule` record and the classifier
  `get_migration_func`. The classifier is a method with the source's flag
  loop, proved against the function `Classify`. Also the three transforms,
  written as functions from the rule to the saved rule and the rule they
  create, if any.
- `MigrationDriver` (`driver.dfy`): the run stated as functions over the
  store's contents, with the guarantees proved about them. The class `Store`
  runs the same nested loops over mutable fields and is proved to compute
  exactly those functions.

The typed model cannot represent the inputs on which processing a rule raises:
a stored condition without an "id", or an id that is not a string
(src/sentry/migrations/0130_issue_alert_filter_all_orgs.py, lines 27 and 29). Database failures cannot be represented either. So exceptions are a
parameter: `faulty` holds the store positions of the rules whose processing
raises.

## Model

| member | source | states |
|---|---|---|
| Conditions.TableImagesAreFilters | src/sentry/migrations/0130_issue_alert_filter_all_orgs.py:11-17 | every image of the table starts with the filter prefix and is not itself a key |
| Conditions.EveryEventIsOld | src/sentry/migrations/0130_issue_alert_filter_all_orgs.py:16-17 | the every-event marker is neither a key nor filter-prefixed, so it counts as an old condition |
| Conditions.MigrateCondition | src/sentry/migrations/0130_issue_alert_filter_all_orgs.py:49-53 | a key is replaced by its table image (a filter id), any other id is kept, the other keys of the entry never change; the result is never a key and is old exactly when the input was |
| Conditions.MigrateConditionIdempotent | src/sentry/migrations/0130_issue_alert_filter_all_orgs.py:49-53 | rewriting a rewritten condition changes nothing |
| Conditions.MigrateAll | src/sentry/migrations/0130_issue_alert_filter_all_orgs.py:64 | the rewritten list has the same length, entry i is the rewrite of entry i, and no key remains |
| Conditions.MigrateAllChanges | src/sentry/migrations/0130_issue_alert_filter_all_orgs.py:63-64 | rewriting leaves the list unchanged exactly when none of its ids is a key (both directions) |
| Conditions.MigrateAllKeepsEveryEvent | src/sentry/migrations/0130_issue_alert_filter_all_orgs.py:114 | rewriting neither creates nor removes an every-event marker at any position |
| Conditions.Select | src/sentry/migrations/0130_issue_alert_filter_all_orgs.py:83-84 | a comprehension with a condition never yields more entries than it reads |
| Conditions.SelectMembers | src/sentry/migrations/0130_issue_alert_filter_all_orgs.py:83-84 | an entry is selected exactly when it is in the list and its id passes the test |
| Conditions.SelectAppend | src/sentry/migrations/0130_issue_alert_filter_all_orgs.py:83-84 | selection distributes over concatenation, so the relative order is kept |
| Conditions.SelectPartition | src/sentry/migrations/0130_issue_alert_filter_all_orgs.py:83-84 | two complementary selections together hold every entry exactly once (as multisets), and their lengths sum to the original length |
| Conditions.SelectCommutes | src/sentry/migrations/0130_issue_alert_filter_all_orgs.py:114 | two selections can be applied in either order |
| Conditions.FilterLikeSurvivesRewrite | src/sentry/migrations/0130_issue_alert_filter_all_orgs.py:83-84 | the filter-like entries of a rewritten list are the rewritten filter-like entries of the original, in the same order |
| Conditions.OldConditionsSurviveRewrite | src/sentry/migrations/0130_issue_alert_filter_all_orgs.py:64 | the old conditions of a rewritten list are those of the original, in the same order |
| AlertRules.GetMigrationFunc | src/sentry/migrations/0130_issue_alert_filter_all_orgs.py:20-45 | the flag loop returns ModifyNone exactly for "none" with an old condition, Split exactly for "any" with both a migratable and an old condition, Simple otherwise; the result equals the function `Classify`, the same decision stated over the whole condition list |
| AlertRules.SimpleMigrateAlertRule | src/sentry/migrations/0130_issue_alert_filter_all_orgs.py:57-70 | without a key nothing changes; otherwise the conditions are rewritten element-wise with the same length, `filter_match` takes the old `action_match`, "none" becomes "all" and any other value is kept; no other field changes and no key remains |
| AlertRules.SimpleKeepsTriggers | src/sentry/migrations/0130_issue_alert_filter_all_orgs.py:57-70 | the simple rewrite keeps the old conditions in their order |
| AlertRules.SplitAlertRule | src/sentry/migrations/0130_issue_alert_filter_all_orgs.py:74-104 | the kept rule holds exactly the old conditions, in order, under the label " (1)" with every other field unchanged; the created rule " (2)" has the same project, environment, actions and frequency, status 0, "any"/"any", and the rewritten filter-like conditions in order |
| AlertRules.SplitSeparates | src/sentry/migrations/0130_issue_alert_filter_all_orgs.py:83-89 | the kept rule holds only old conditions and the created one only filter ids; the kept list and the filter-like entries before their rewrite partition the original (multiset sum); the two saved lists partition the rewritten list (multiset sum); their lengths sum to the original length |
| AlertRules.ModifyNoneRule | src/sentry/migrations/0130_issue_alert_filter_all_orgs.py:109-120 | the conditions are the rewritten non-every-event conditions in order, `filter_match` is "none" and `action_match` is "any", nothing else changes, and no key remains |
| AlertRules.ModifyNoneKeepsTriggers | src/sentry/migrations/0130_issue_alert_filter_all_orgs.py:113-115 | no every-event marker remains, and the old conditions kept are the original old ones minus the markers, in order |
| AlertRules.Apply | src/sentry/migrations/0130_issue_alert_filter_all_orgs.py:127-128 | whichever transform runs, no key remains in the saved or created rule; a rule is created exactly by Split, in the same project with status 0; project and status of the saved rule are kept. `Migrate` is `Apply` of `Classify`, the per-rule step of the loop |
| AlertRules.SettledIff | src/sentry/migrations/0130_issue_alert_filter_all_orgs.py:20-120 | a rule is left alone by a pass (nothing changed, nothing created) exactly when it has no key and is not a "none" rule with an old condition |
| AlertRules.MigrateIdempotent | src/sentry/migrations/0130_issue_alert_filter_all_orgs.py:149-151 | a second pass over the saved rule, and over a created rule, changes nothing and creates nothing |
| MigrationDriver.RulesAfter | src/sentry/migrations/0130_issue_alert_filter_all_orgs.py:125-128 | after k steps of the rule loop the store is at least as long as before and the rules not yet reached are untouched |
| MigrationDriver.RulesAfterShape | src/sentry/migrations/0130_issue_alert_filter_all_orgs.py:125-128 | after k steps each of the first k rules holds its migration's saved rule if active in the project (itself otherwise); every appended rule is an active, settled rule of the project, present only if some active rule was reached |
| MigrationDriver.CreatedByOnlyCreated | src/sentry/migrations/0130_issue_alert_filter_all_orgs.py:92-128 | every rule among those created by the first k steps is the rule created by the migration of one of the first k rules, active in the project |
| MigrationDriver.CreatedByAllCreated | src/sentry/migrations/0130_issue_alert_filter_all_orgs.py:92-128 | every rule created by the migration of one of the first k rules, active in the project, is among those created |
| MigrationDriver.CreatedByMembers | src/sentry/migrations/0130_issue_alert_filter_all_orgs.py:92-128 | a rule is among those created by the first k steps exactly when the migration of one of the first k rules, active in the project, creates it |
| MigrationDriver.RulesAfterAppends | src/sentry/migrations/0130_issue_alert_filter_all_orgs.py:92-128 | the rules the loop appends to the store are exactly the rules the reached splits create, in loop order, one per split; the store grows by that many rules |
| MigrationDriver.RulesAfterCreated | src/sentry/migrations/0130_issue_alert_filter_all_orgs.py:92-128 | every appended rule is the rule created by the migration of a reached active rule, and every rule so created is appended |
| MigrationDriver.MigrateProjectSettles | src/sentry/migrations/0130_issue_alert_filter_all_orgs.py:123-130 | after a committed transaction (the function `MigrateProject`, the loop run over all rules present when the query ran) every active rule of the project is settled |
| MigrationDriver.RulesAfterSettled | src/sentry/migrations/0130_issue_alert_filter_all_orgs.py:125-128 | a loop over settled rules leaves the store as it was |
| MigrationDriver.SettledProjectUnchanged | src/sentry/migrations/0130_issue_alert_filter_all_orgs.py:123-130 | a project whose active rules are all settled is left exactly as it is |
| MigrationDriver.MigrateProjectShape | src/sentry/migrations/0130_issue_alert_filter_all_orgs.py:125 | a transaction keeps every rule at its position with its project and status, leaves rules of other projects or inactive ones unchanged, and appends only active rules of its project |
| MigrationDriver.MigrateProjectFrame | src/sentry/migrations/0130_issue_alert_filter_all_orgs.py:125 | an active rule of another project is found after the transaction only at its old position, unchanged |
| MigrationDriver.HasActiveRulePreserved | src/sentry/migrations/0130_issue_alert_filter_all_orgs.py:125-128 | a transaction neither gives nor takes away any project's last active rule |
| MigrationDriver.FlagAfter | src/sentry/migrations/0130_issue_alert_filter_all_orgs.py:126-130 | after k steps the flag is set exactly when it was set before or one of the first k rules was an active rule of the project |
| MigrationDriver.RunProject | src/sentry/migrations/0130_issue_alert_filter_all_orgs.py:146-152 | one step keeps the number of projects and only appends to the failure log |
| MigrationDriver.RunProjectFrame | src/sentry/migrations/0130_issue_alert_filter_all_orgs.py:146-152 | one step changes no other project, and of its own project only the flag |
| MigrationDriver.RunProjectOutcome | src/sentry/migrations/0130_issue_alert_filter_all_orgs.py:124-152 | if some active rule raises, the store is rolled back and only the project id is logged; otherwise nothing is logged, its active rules end settled, and its flag is set exactly when it was set or it has an active rule |
| MigrationDriver.RunSchedule | src/sentry/migrations/0130_issue_alert_filter_all_orgs.py:142-152 | a run changes projects only in their flags and only appends to the failure log |
| MigrationDriver.RunScheduleAppend | src/sentry/migrations/0130_issue_alert_filter_all_orgs.py:142-152 | running a visiting order in two parts is the same as running it whole |
| MigrationDriver.ProjectsOf | src/sentry/migrations/0130_issue_alert_filter_all_orgs.py:145 | the projects of an organisation are valid positions in the project list |
| MigrationDriver.ProjectsOfMembers | src/sentry/migrations/0130_issue_alert_filter_all_orgs.py:145 | a project is listed exactly when it is active and belongs to the organisation |
| MigrationDriver.Schedule | src/sentry/migrations/0130_issue_alert_filter_all_orgs.py:142-145 | the visiting order holds valid project positions |
| MigrationDriver.ScheduleMembers | src/sentry/migrations/0130_issue_alert_filter_all_orgs.py:142-145 | a project is visited exactly when it is active and an active organisation owns it |
| MigrationDriver.ScheduleShape | src/sentry/migrations/0130_issue_alert_filter_all_orgs.py:142-145 | the visiting order does not depend on the flags, so a rerun visits the same projects |
| MigrationDriver.RunTouchesOnlyScheduledRules | src/sentry/migrations/0130_issue_alert_filter_all_orgs.py:125-128 | a rule that is inactive or belongs to an unvisited project is unchanged at its position; every rule the run creates is active and belongs to a visited project |
| MigrationDriver.RunTouchesOnlyScheduledProjects | src/sentry/migrations/0130_issue_alert_filter_all_orgs.py:142-147 | a project the run does not visit is unchanged |
| MigrationDriver.FlagOnlyWithActiveRule | src/sentry/migrations/0130_issue_alert_filter_all_orgs.py:126-130 | the run sets `has_alert_filters` only on projects that were flagged or had an active rule, and keeps for every project whether it has an active rule |
| MigrationDriver.RunCompletes | src/sentry/migrations/0130_issue_alert_filter_all_orgs.py:146-152 | a failure does not stop the run: every visited project whose id was not newly logged ends with all its active rules settled, and flagged if it has one |
| MigrationDriver.FaultFreeRunLogsNothing | src/sentry/migrations/0130_issue_alert_filter_all_orgs.py:146-152 | a run in which nothing raises logs nothing |
| MigrationDriver.RunOnCompletedIsIdentity | src/sentry/migrations/0130_issue_alert_filter_all_orgs.py:123-152 | visiting projects that are already complete changes nothing |
| MigrationDriver.MigrationIdempotent | src/sentry/migrations/0130_issue_alert_filter_all_orgs.py:149-151 | running the migration again after a run in which nothing raised leaves the store unchanged; the function `MigrateAllOrgs` is `migrate_all_orgs` (lines 133-152), the run over the visiting order |
| MigrationDriver.RerunRecovers | src/sentry/migrations/0130_issue_alert_filter_all_orgs.py:149-151 | after a run with failures, a rerun in which nothing raises logs nothing new and completes every visited project, and a further run changes nothing |
| MigrationDriver.Store.MigrateProjectAlertRules | src/sentry/migrations/0130_issue_alert_filter_all_orgs.py:123-130 | the rule loop commits exactly when no active rule of the project raises; it then leaves the rules of the project's transaction and the flag set when it was set or the project has an active rule; otherwise rules and projects are restored |
| MigrationDriver.Store.MigrateProjectOrLog | src/sentry/migrations/0130_issue_alert_filter_all_orgs.py:146-152 | the try/except body leaves the store as one step of the run |
| MigrationDriver.Store.MigrateOrgProjects | src/sentry/migrations/0130_issue_alert_filter_all_orgs.py:145-152 | the loop over an organisation's projects leaves the store as the run over its active projects, in order |
| MigrationDriver.Store.MigrateAllOrgs | src/sentry/migrations/0130_issue_alert_filter_all_orgs.py:133-152 | the nested loops leave the store as the run over the visiting order of active organisations and their active projects |

## Left out

- Django ORM querying, `save()` and `Rule.objects.create`. The store is in-memory sequences. A created rule is appended to the rule list with status 0, which is the `Rule` model's default; the model file is not part of this model.
- `transaction.atomic` is modelled only as per-project all-or-nothing: the rule and project lists are snapshotted and restored.
- Exceptions come from the `faulty` parameter. What raises and why (a condition without "id", a database error) is not modelled.
- Only failures while handling an active rule of the project are represented. A raise from opening the transaction or evaluating the rule query (src/sentry/migrations/0130_issue_alert_filter_all_orgs.py:124-126) for a project with no active rules, and the log entry it would cause, are not modelled.
- `logging.exception` is modelled as appending the project id to `failed`. The message text is not kept.
- `RangeQuerySetWrapperWithProgressBar` is left out as a loop over the organisation sequence. The order of that sequence stands for the order in which the wrapper pages through the organisations. The progress bar is left out. No property proved here depends on the order of organisations.
- Projects and rules are visited in the order of their stored sequences, which stands for the order the queries return them in.
- The rule queryset is evaluated once per project, so rules created by a split are not visited in the same pass. The model loops over the store length taken before the loop.
- The `Migration` class metadata (`is_dangerous`, `atomic`, dependencies, `RunPython`) is framework plumbing and is left out.
- Python aliasing is left out: `migrate_condition` mutates the shared condition dictionaries in place. Conditions have value semantics here, and the saved results are the same.
- A missing `action_match` key and a stored null are the same value (`None`). Strings other than "all", "any" and "none" are not modelled.
- Conditions are an id plus opaque string parameters. Actions are opaque maps, and frequency is an optional integer.
- Conditions.Select: its own contract only bounds the length. Membership is stated by `SelectMembers` and order by `SelectAppend`, kept apart so that unfolding a transform stays cheap for the verifier.
- MigrationDriver.RunProject: its own contract only keeps the project count and extends the log. What the step does is stated by `RunProjectOutcome` and `RunProjectFrame`.

=== FILE: conditions.dfy ===
/**
 * Condition identifiers of issue-alert rules and their rewrite into filter
 * identifiers: the constant table `conditions_to_filters`, the filter prefix,
 * the every-event marker, `migrate_condition`, and the order-preserving
 * selection that the list comprehensions of the migration perform.
 */
module Conditions {

  /** The three condition classes that have a filter equivalent. */
  const ConditionsToFilters: map<string, string> := map[
    "sentry.rules.conditions.tagged_event.TaggedEventCondition"
      := "sentry.rules.filters.tagged_event.TaggedEventFilter",
    "sentry.rules.conditions.event_attribute.EventAttributeCondition"
      := "sentry.rules.filters.event_attribute.EventAttributeFilter",
    "sentry.rules.conditions.level.LevelCondition"
      := "sentry.rules.filters.level.LevelFilter"
  ]

  const EveryEventCondition: string := "sentry.rules.conditions.every_event.EveryEventCondition"

  const FilterPrefix: string := "sentry.rules.filters"

  /** One entry of a rule's stored "conditions" list: its "id" and its other keys. */
  datatype Condition = Condition(id: string, params: map<string, string>)

  /** `id in conditions_to_filters` */
  predicate IsMigratable(id: string) {
    id in ConditionsToFilters
  }

  /** `id.startswith(filter_prefix)` */
  predicate IsFilterId(id: string) {
    FilterPrefix <= id
  }

  /** An "old" condition: neither migratable nor already a filter. */
  predicate IsOld(id: string) {
    !IsMigratable(id) && !IsFilterId(id)
  }

  /** The entries that `split_alert_rule` moves to the filter rule. */
  predicate IsFilterLike(id: string) {
    IsMigratable(id) || IsFilterId(id)
  }

  predicate IsNotEveryEvent(id: string) {
    id != EveryEventCondition
  }

  predicate HasMigratable(cs: seq<Condition>) {
    exists i | 0 <= i < |cs| :: IsMigratable(cs[i].id)
  }

  predicate HasOld(cs: seq<Condition>) {
    exists i | 0 <= i < |cs| :: IsOld(cs[i].id)
  }

  /** Every image of the table is a filter identifier and is not itself a key. */
  lemma TableImagesAreFilters()
    ensures forall k | k in ConditionsToFilters ::
      IsFilterId(ConditionsToFilters[k]) && !IsMigratable(ConditionsToFilters[k])
  {
  }

  /** The every-event marker is an old condition. */
  lemma EveryEventIsOld()
    ensures IsOld(EveryEventCondition)
  {
    // "sentry.rules.conditions..." and "sentry.rules.filters" part at index 13
    assert EveryEventCondition[13] == 'c' != FilterPrefix[13];
  }

  /** Rewriting neither creates nor removes an every-event marker. */
  lemma MigrateAllKeepsEveryEvent(cs: seq<Condition>)
    ensures forall i | 0 <= i < |cs| ::
      (MigrateAll(cs)[i].id == EveryEventCondition <==> cs[i].id == EveryEventCondition)
  {
    EveryEventIsOld();
  }

  /**
   * `migrate_condition`: the id is replaced by its table image when it is a
   * key and kept otherwise; the other keys of the entry are untouched.
   */
  function MigrateCondition(c: Condition): (r: Condition)
    ensures r.params == c.params
    ensures IsMigratable(c.id) ==> r.id == ConditionsToFilters[c.id] && IsFilterId(r.id)
    ensures !IsMigratable(c.id) ==> r == c
    ensures !IsMigratable(r.id)
    ensures IsOld(r.id) == IsOld(c.id)
  {
    TableImagesAreFilters();
    if IsMigratable(c.id) then c.(id := ConditionsToFilters[c.id]) else c
  }

  lemma MigrateConditionIdempotent(c: Condition)
    ensures MigrateCondition(MigrateCondition(c)) == MigrateCondition(c)
  {
  }

  /** `[migrate_condition(c) for c in cs]` */
  function MigrateAll(cs: seq<Condition>): (r: seq<Condition>)
    ensures |r| == |cs|
    ensures forall i | 0 <= i < |cs| :: r[i] == MigrateCondition(cs[i])
    ensures !HasMigratable(r)
  {
    if cs == [] then [] else [MigrateCondition(cs[0])] + MigrateAll(cs[1..])
  }

  /** Rewriting changes the list exactly when it holds a migratable entry. */
  lemma MigrateAllChanges(cs: seq<Condition>)
    ensures MigrateAll(cs) == cs <==> !HasMigratable(cs)
  {
    if HasMigratable(cs) {
      var i :| 0 <= i < |cs| && IsMigratable(cs[i].id);
      assert MigrateAll(cs)[i] != cs[i];
    } else {
      assert forall i | 0 <= i < |cs| :: MigrateAll(cs)[i] == cs[i];
    }
  }

  /** `[c for c in cs if keep(c["id"])]`: the entries whose id passes, in their order. */
  function Select(cs: seq<Condition>, keep: string -> bool): (r: seq<Condition>)
    ensures |r| <= |cs|
  {
    if cs == [] then []
    else (if keep(cs[0].id) then [cs[0]] else []) + Select(cs[1..], keep)
  }

  /** An entry is selected exactly when it is in the list and its id passes. */
  lemma {:induction false} SelectMembers(cs: seq<Condition>, keep: string -> bool)
    ensures forall c :: c in Select(cs, keep) <==> c in cs && keep(c.id)
  {
    if cs != [] {
      SelectMembers(cs[1..], keep);
      assert cs == [cs[0]] + cs[1..];
    }
  }

  /** Selection distributes over concatenation: it keeps the relative order. */
  lemma {:induction false} SelectAppend(a: seq<Condition>, b: seq<Condition>, keep: string -> bool)
    ensures Select(a + b, keep) == Select(a, keep) + Select(b, keep)
  {
    if a == [] {
      assert a + b == b;
    } else {
      var head := if keep(a[0].id) then [a[0]] else [];
      assert (a + b)[0] == a[0] && (a + b)[1..] == a[1..] + b;
      SelectAppend(a[1..], b, keep);
      calc {
        Select(a + b, keep);
        head + Select(a[1..] + b, keep);
        head + (Select(a[1..], keep) + Select(b, keep));
        (head + Select(a[1..], keep)) + Select(b, keep);
        Select(a, keep) + Select(b, keep);
      }
    }
  }

  /** Two complementary selections split the list: every entry lands in exactly one. */
  lemma {:induction false} SelectPartition(cs: seq<Condition>, p: string -> bool, q: string -> bool)
    requires forall id :: q(id) == !p(id)
    ensures multiset(Select(cs, p)) + multiset(Select(cs, q)) == multiset(cs)
    ensures |Select(cs, p)| + |Select(cs, q)| == |cs|
  {
    if cs != [] {
      SelectPartition(cs[1..], p, q);
      assert cs == [cs[0]] + cs[1..];
    }
  }

  /** Two selections can be applied in either order. */
  lemma {:induction false} SelectCommutes(cs: seq<Condition>, p: string -> bool, q: string -> bool)
    ensures Select(Select(cs, p), q) == Select(Select(cs, q), p)
  {
    if cs != [] {
      SelectCommutes(cs[1..], p, q);
      assert cs == [cs[0]] + cs[1..];
      SelectAppend([cs[0]], cs[1..], p);
      SelectAppend([cs[0]], cs[1..], q);
      SelectAppend(Select([cs[0]], p), Select(cs[1..], p), q);
      SelectAppend(Select([cs[0]], q), Select(cs[1..], q), p);
    }
  }

  /**
   * Rewriting never adds, drops or reorders an old condition: the old
   * entries of the rewritten list are the old entries of the original.
   */
  lemma {:induction false} OldConditionsSurviveRewrite(cs: seq<Condition>)
    ensures Select(MigrateAll(cs), IsOld) == Select(cs, IsOld)
  {
    if cs != [] {
      OldConditionsSurviveRewrite(cs[1..]);
      assert MigrateAll(cs) == [MigrateCondition(cs[0])] + MigrateAll(cs[1..]);
    }
  }

  /**
   * Selecting the filter-like entries and rewriting commute: the filter-like
   * entries of the rewritten list are the rewritten filter-like entries.
   */
  lemma {:induction false} FilterLikeSurvivesRewrite(cs: seq<Condition>)
    ensures Select(MigrateAll(cs), IsFilterLike) == MigrateAll(Select(cs, IsFilterLike))
  {
    if cs != [] {
      var tail := Select(cs[1..], IsFilterLike);
      FilterLikeSurvivesRewrite(cs[1..]);
      assert MigrateAll(cs)[1..] == MigrateAll(cs[1..]);
      if IsFilterLike(cs[0].id) {
        assert MigrateAll([cs[0]] + tail) == [MigrateCondition(cs[0])] + MigrateAll(tail);
      }
    }
  }

}

=== FILE: driver.dfy ===
/**
 * The batch driver of the migration, `migrate_all_orgs` and
 * `migrate_project_alert_rules`: active organisations, then their active
 * projects, then the project's active rules, each project inside its own
 * transaction. The first half states the run as functions over the store's
 * contents and proves what the run guarantees; the class `Store` at the end
 * runs the same loops over mutable state and is proved to follow them.
 *
 * The typed model cannot represent the inputs on which processing a rule
 * raises (a stored condition without an "id", an id that is not a string)
 * nor database failures, so they are a parameter: `faulty` holds the store
 * positions of the rules whose processing raises. Only failures while
 * handling an active rule are represented: a project with no active rules
 * never fails.
 */
module MigrationDriver {

  import opened Wrappers
  import opened Conditions
  import opened AlertRules

  datatype Organization = Organization(id: nat, status: nat)

  /** A project and its `has_alert_filters` flag. */
  datatype Project = Project(id: nat, organizationId: nat, status: nat, hasAlertFilters: bool)

  /** What the migration can change: projects, rules, and the projects it logged as failed. */
  datatype Db = Db(projects: seq<Project>, rules: seq<Rule>, failed: seq<nat>)

  /** `Rule.objects.filter(project=project, status=0)` */
  predicate ActiveIn(r: Rule, pid: nat) {
    r.projectId == pid && r.status == 0
  }

  predicate HasActiveRule(rs: seq<Rule>, pid: nat) {
    exists i | 0 <= i < |rs| :: ActiveIn(rs[i], pid)
  }

  /** Processing some active rule of the project raises. */
  predicate Faults(rs: seq<Rule>, pid: nat, faulty: set<nat>) {
    exists i | 0 <= i < |rs| :: i in faulty && ActiveIn(rs[i], pid)
  }

  /** Every active rule of the project is one the migration leaves alone. */
  predicate ProjectSettled(rs: seq<Rule>, pid: nat) {
    forall i | 0 <= i < |rs| :: ActiveIn(rs[i], pid) ==> Settled(rs[i])
  }

  /**
   * The store's rules once the project loop has handled the first k of the
   * rules present when its query ran: each active rule of the project is
   * replaced by what its migration saves, where it stands, and the rule a
   * split creates is appended to the store.
   */
  function RulesAfter(rs: seq<Rule>, k: nat, pid: nat): (cur: seq<Rule>)
    requires k <= |rs|
    ensures |cur| >= |rs|
    ensures forall j | k <= j < |rs| :: cur[j] == rs[j]
  {
    if k == 0 then rs
    else
      var prev := RulesAfter(rs, k - 1, pid);
      var r := rs[k - 1];
      if ActiveIn(r, pid) then
        var o := Migrate(r);
        prev[k - 1 := o.rule] + (if o.created.Some? then [o.created.value] else [])
      else
        prev
  }

  /**
   * After k steps each of the first k rules holds what its migration saved
   * (an inactive or foreign rule holds itself), and every rule after the
   * original ones is a settled active rule of the project, created by a
   * split of one of the first k.
   */
  lemma {:induction false} RulesAfterShape(rs: seq<Rule>, k: nat, pid: nat)
    requires k <= |rs|
    ensures forall j | 0 <= j < k ::
      RulesAfter(rs, k, pid)[j] == if ActiveIn(rs[j], pid) then Migrate(rs[j]).rule else rs[j]
    ensures forall j | |rs| <= j < |RulesAfter(rs, k, pid)| ::
      ActiveIn(RulesAfter(rs, k, pid)[j], pid) && Settled(RulesAfter(rs, k, pid)[j])
    ensures |RulesAfter(rs, k, pid)| > |rs| ==> exists j | 0 <= j < k :: ActiveIn(rs[j], pid)
  {
    if k > 0 {
      RulesAfterShape(rs, k - 1, pid);
      MigrateIdempotent(rs[k - 1]);
    }
  }

  /** The values of the `Some` entries, in order. */
  function Somes(os: seq<Option<Rule>>): seq<Rule> {
    if os == [] then []
    else
      var last := os[|os| - 1];
      Somes(os[..|os| - 1]) + (if last.Some? then [last.value] else [])
  }

  lemma {:induction false} SomesMembers(os: seq<Option<Rule>>)
    ensures forall c :: c in Somes(os) <==> exists i | 0 <= i < |os| :: os[i] == Some(c)
  {
    if os != [] {
      var init := os[..|os| - 1];
      SomesMembers(init);
      forall c ensures c in Somes(os) <==> exists i | 0 <= i < |os| :: os[i] == Some(c) {
        if exists i | 0 <= i < |os| :: os[i] == Some(c) {
          var i :| 0 <= i < |os| && os[i] == Some(c);
          if i < |os| - 1 {
            assert init[i] == Some(c);
          }
        }
        if c in Somes(init) {
          var i :| 0 <= i < |init| && init[i] == Some(c);
          assert os[i] == Some(c);
        }
      }
    }
  }

  /** What handling each of the first k rules creates: `None` where it creates nothing. */
  function Creations(rs: seq<Rule>, k: nat, pid: nat): seq<Option<Rule>>
    requires k <= |rs|
  {
    seq(k, i requires 0 <= i < k <= |rs| => if ActiveIn(rs[i], pid) then Migrate(rs[i]).created else None)
  }

  /** The rules created by splits of the first k rules active in the project, in loop order. */
  function CreatedBy(rs: seq<Rule>, k: nat, pid: nat): seq<Rule>
    requires k <= |rs|
  {
    Somes(Creations(rs, k, pid))
  }

  /** Every rule among those created was created by a reached active rule. */
  lemma CreatedByOnlyCreated(rs: seq<Rule>, k: nat, pid: nat)
    requires k <= |rs|
    ensures forall c | c in CreatedBy(rs, k, pid) ::
      exists i | 0 <= i < k :: ActiveIn(rs[i], pid) && Migrate(rs[i]).created == Some(c)
  {
    var os := Creations(rs, k, pid);
    SomesMembers(os);
    forall c | c in Somes(os)
      ensures exists i | 0 <= i < k :: ActiveIn(rs[i], pid) && Migrate(rs[i]).created == Some(c)
    {
      var i :| 0 <= i < k && os[i] == Some(c);
      assert ActiveIn(rs[i], pid) && Migrate(rs[i]).created == Some(c);
    }
  }

  /** Every rule a reached active rule creates is among those created. */
  lemma CreatedByAllCreated(rs: seq<Rule>, k: nat, pid: nat)
    requires k <= |rs|
    ensures forall i | 0 <= i < k && ActiveIn(rs[i], pid) && Migrate(rs[i]).created.Some? ::
      Migrate(rs[i]).created.value in CreatedBy(rs, k, pid)
  {
    var os := Creations(rs, k, pid);
    SomesMembers(os);
    forall i | 0 <= i < k && ActiveIn(rs[i], pid) && Migrate(rs[i]).created.Some?
      ensures Migrate(rs[i]).created.value in Somes(os)
    {
      assert os[i] == Some(Migrate(rs[i]).created.value);
    }
  }

  /** A rule is created exactly by a reached active rule whose migration creates it. */
  lemma CreatedByMembers(rs: seq<Rule>, k: nat, pid: nat)
    requires k <= |rs|
    ensures forall c :: c in CreatedBy(rs, k, pid) <==>
      exists i | 0 <= i < k :: ActiveIn(rs[i], pid) && Migrate(rs[i]).created == Some(c)
  {
    CreatedByOnlyCreated(rs, k, pid);
    CreatedByAllCreated(rs, k, pid);
    forall c, i | 0 <= i < k && ActiveIn(rs[i], pid) && Migrate(rs[i]).created == Some(c)
      ensures c in CreatedBy(rs, k, pid)
    {
      assert Migrate(rs[i]).created.value == c;
    }
  }

  /** One more loop step adds what handling the next rule creates, if anything. */
  lemma CreatedByStep(rs: seq<Rule>, k: nat, pid: nat)
    requires 0 < k <= |rs|
    ensures CreatedBy(rs, k, pid) == CreatedBy(rs, k - 1, pid)
      + (if ActiveIn(rs[k - 1], pid) && Migrate(rs[k - 1]).created.Some?
         then [Migrate(rs[k - 1]).created.value] else [])
  {
    assert Creations(rs, k, pid)[..k - 1] == Creations(rs, k - 1, pid);
  }

  /**
   * What the loop appends to the store is exactly the sequence of rules the
   * reached splits create (`Rule.objects.create`), in order, one per split.
   */
  lemma {:induction false} RulesAfterAppends(rs: seq<Rule>, k: nat, pid: nat)
    requires k <= |rs|
    ensures RulesAfter(rs, k, pid)[|rs|..] == CreatedBy(rs, k, pid)
    ensures |RulesAfter(rs, k, pid)| == |rs| + |CreatedBy(rs, k, pid)|
  {
    if k > 0 {
      RulesAfterAppends(rs, k - 1, pid);
      CreatedByStep(rs, k, pid);
      var prev := RulesAfter(rs, k - 1, pid);
      var r := rs[k - 1];
      if ActiveIn(r, pid) {
        var o := Migrate(r);
        var extra := if o.created.Some? then [o.created.value] else [];
        assert RulesAfter(rs, k, pid) == prev[k - 1 := o.rule] + extra;
        assert (prev[k - 1 := o.rule] + extra)[|rs|..] == prev[|rs|..] + extra;
      }
    }
  }

  /**
   * Every rule the loop appends is the rule created by the migration of a
   * reached active rule, and every rule so created is appended.
   */
  lemma RulesAfterCreated(rs: seq<Rule>, k: nat, pid: nat)
    requires k <= |rs|
    ensures forall c | c in RulesAfter(rs, k, pid)[|rs|..] ::
      exists i | 0 <= i < k :: ActiveIn(rs[i], pid) && Migrate(rs[i]).created == Some(c)
    ensures forall i | 0 <= i < k && ActiveIn(rs[i], pid) && Migrate(rs[i]).created.Some? ::
      Migrate(rs[i]).created.value in RulesAfter(rs, k, pid)[|rs|..]
  {
    RulesAfterAppends(rs, k, pid);
    CreatedByMembers(rs, k, pid);
    forall i | 0 <= i < k && ActiveIn(rs[i], pid) && Migrate(rs[i]).created.Some?
      ensures Migrate(rs[i]).created.value in CreatedBy(rs, k, pid)
    {
      assert Migrate(rs[i]).created == Some(Migrate(rs[i]).created.value);
    }
  }

  /** The project's rules after its transaction commits. */
  function MigrateProject(rs: seq<Rule>, pid: nat): seq<Rule> {
    RulesAfter(rs, |rs|, pid)
  }

  /** After its transaction, every active rule of the project is settled. */
  lemma MigrateProjectSettles(rs: seq<Rule>, pid: nat)
    ensures ProjectSettled(MigrateProject(rs, pid), pid)
  {
    var m := MigrateProject(rs, pid);
    RulesAfterShape(rs, |rs|, pid);
    forall i | 0 <= i < |m| && ActiveIn(m[i], pid)
      ensures Settled(m[i])
    {
      if i < |rs| {
        MigrateIdempotent(rs[i]);
      }
    }
  }

  /** A loop over settled rules leaves the store as it was. */
  lemma {:induction false} RulesAfterSettled(rs: seq<Rule>, k: nat, pid: nat)
    requires k <= |rs|
    requires forall j | 0 <= j < k :: ActiveIn(rs[j], pid) ==> Settled(rs[j])
    ensures RulesAfter(rs, k, pid) == rs
  {
    if k > 0 {
      RulesAfterSettled(rs, k - 1, pid);
      var r := rs[k - 1];
      if ActiveIn(r, pid) {
        assert Migrate(r) == Outcome(r, None);
        assert rs[k - 1 := r] == rs;
      }
    }
  }

  /** A project whose active rules are settled is left exactly as it is. */
  lemma SettledProjectUnchanged(rs: seq<Rule>, pid: nat)
    requires ProjectSettled(rs, pid)
    ensures MigrateProject(rs, pid) == rs
  {
    RulesAfterSettled(rs, |rs|, pid);
  }

  /**
   * A transaction keeps every rule where it was, with its project and
   * status, and appends only active rules of the project it migrates.
   */
  lemma MigrateProjectShape(rs: seq<Rule>, q: nat)
    ensures |MigrateProject(rs, q)| >= |rs|
    ensures forall i | 0 <= i < |rs| ::
      MigrateProject(rs, q)[i].projectId == rs[i].projectId && MigrateProject(rs, q)[i].status == rs[i].status
    ensures forall i | 0 <= i < |rs| && !ActiveIn(rs[i], q) :: MigrateProject(rs, q)[i] == rs[i]
    ensures forall i | |rs| <= i < |MigrateProject(rs, q)| :: ActiveIn(MigrateProject(rs, q)[i], q)
  {
    RulesAfterShape(rs, |rs|, q);
  }

  /**
   * One project's transaction touches no active rule of another project:
   * such a rule sits at its old position, unchanged, and no rule of the
   * other project is created.
   */
  lemma MigrateProjectFrame(rs: seq<Rule>, q: nat, pid: nat)
    requires q != pid
    ensures forall i | 0 <= i < |MigrateProject(rs, q)| && ActiveIn(MigrateProject(rs, q)[i], pid) ::
      i < |rs| && MigrateProject(rs, q)[i] == rs[i]
  {
    MigrateProjectShape(rs, q);
  }

  /** No transaction adds or removes the last active rule of any project. */
  lemma HasActiveRulePreserved(rs: seq<Rule>, q: nat, pid: nat)
    ensures HasActiveRule(MigrateProject(rs, q), pid) == HasActiveRule(rs, pid)
  {
    var m := MigrateProject(rs, q);
    MigrateProjectShape(rs, q);
    RulesAfterShape(rs, |rs|, q);
    if HasActiveRule(rs, pid) {
      var i :| 0 <= i < |rs| && ActiveIn(rs[i], pid);
      assert ActiveIn(m[i], pid);
    }
    if HasActiveRule(m, pid) {
      var i :| 0 <= i < |m| && ActiveIn(m[i], pid);
      if i < |rs| {
        assert ActiveIn(rs[i], pid);
      } else {
        assert ActiveIn(m[i], q);
        var j :| 0 <= j < |rs| && ActiveIn(rs[j], q);
        assert ActiveIn(rs[j], pid);
      }
    }
  }

  /** The project's flag once the loop has handled the first k rules. */
  function FlagAfter(rs: seq<Rule>, k: nat, pid: nat, flag: bool): (f: bool)
    requires k <= |rs|
    ensures f <==> flag || exists j | 0 <= j < k :: ActiveIn(rs[j], pid)
  {
    if k == 0 then flag
    else FlagAfter(rs, k - 1, pid, flag) || ActiveIn(rs[k - 1], pid)
  }

  /**
   * The body of the project loop as one step: a project whose processing
   * raises is rolled back and logged; otherwise its rules are migrated and
   * its flag is set when it has at least one active rule.
   */
  function RunProject(db: Db, p: nat, faulty: set<nat>): (r: Db)
    requires p < |db.projects|
    ensures |r.projects| == |db.projects| && db.failed <= r.failed
  {
    var pid := db.projects[p].id;
    if Faults(db.rules, pid, faulty) then
      db.(failed := db.failed + [pid])
    else
      var flagged := db.projects[p].hasAlertFilters || HasActiveRule(db.rules, pid);
      db.(rules := MigrateProject(db.rules, pid),
          projects := db.projects[p := db.projects[p].(hasAlertFilters := flagged)])
  }

  /** Processing a project changes no other project, and of it only the flag. */
  lemma RunProjectFrame(db: Db, p: nat, faulty: set<nat>)
    requires p < |db.projects|
    ensures forall j | 0 <= j < |db.projects| && j != p :: RunProject(db, p, faulty).projects[j] == db.projects[j]
    ensures RunProject(db, p, faulty).projects[p].(hasAlertFilters := db.projects[p].hasAlertFilters) == db.projects[p]
  {
  }

  /**
   * A project whose processing raises is rolled back and its id logged;
   * otherwise nothing is logged, its active rules end settled, and its flag
   * is set exactly when it was set or the project has an active rule.
   */
  lemma RunProjectOutcome(db: Db, p: nat, faulty: set<nat>)
    requires p < |db.projects|
    ensures Faults(db.rules, db.projects[p].id, faulty) ==>
      RunProject(db, p, faulty) == db.(failed := db.failed + [db.projects[p].id])
    ensures !Faults(db.rules, db.projects[p].id, faulty) ==>
      && RunProject(db, p, faulty).failed == db.failed
      && ProjectSettled(RunProject(db, p, faulty).rules, db.projects[p].id)
      && (RunProject(db, p, faulty).projects[p].hasAlertFilters <==>
          db.projects[p].hasAlertFilters || HasActiveRule(db.rules, db.projects[p].id))
  {
    MigrateProjectSettles(db.rules, db.projects[p].id);
  }

  predicate ValidSchedule(sched: seq<nat>, n: nat) {
    forall k | 0 <= k < |sched| :: sched[k] < n
  }

  /** The projects that differ at most in their `has_alert_filters` flags. */
  predicate SameShape(ps: seq<Project>, qs: seq<Project>) {
    && |ps| == |qs|
    && forall i | 0 <= i < |ps| ::
      ps[i].id == qs[i].id && ps[i].organizationId == qs[i].organizationId && ps[i].status == qs[i].status
  }

  /** The projects of the schedule, processed in order. */
  function RunSchedule(db: Db, sched: seq<nat>, faulty: set<nat>): (r: Db)
    requires ValidSchedule(sched, |db.projects|)
    ensures SameShape(r.projects, db.projects) && db.failed <= r.failed
  {
    if sched == [] then db
    else
      var mid := RunSchedule(db, sched[..|sched| - 1], faulty);
      RunProjectFrame(mid, sched[|sched| - 1], faulty);
      RunProject(mid, sched[|sched| - 1], faulty)
  }

  lemma RunScheduleSnoc(db: Db, sched: seq<nat>, q: nat, faulty: set<nat>)
    requires ValidSchedule(sched, |db.projects|) && q < |db.projects|
    ensures ValidSchedule(sched + [q], |db.projects|)
    ensures RunSchedule(db, sched + [q], faulty) == RunProject(RunSchedule(db, sched, faulty), q, faulty)
  {
    assert (sched + [q])[..|sched|] == sched;
  }

  /** Running a schedule in two parts is running it whole. */
  lemma {:induction false} RunScheduleAppend(db: Db, a: seq<nat>, b: seq<nat>, faulty: set<nat>)
    requires ValidSchedule(a, |db.projects|) && ValidSchedule(b, |db.projects|)
    ensures ValidSchedule(a + b, |db.projects|)
    ensures RunSchedule(db, a + b, faulty) == RunSchedule(RunSchedule(db, a, faulty), b, faulty)
  {
    if b == [] {
      assert a + b == a;
    } else {
      var init := b[..|b| - 1];
      RunScheduleAppend(db, a, init, faulty);
      assert (a + b)[..|a + b| - 1] == a + init;
    }
  }

  /** `Project.objects.filter(organization=org, status=0)` among the first n projects. */
  function ProjectsOf(org: nat, ps: seq<Project>, n: nat): (s: seq<nat>)
    requires n <= |ps|
    ensures ValidSchedule(s, n)
  {
    if n == 0 then []
    else
      ProjectsOf(org, ps, n - 1)
      + (if ps[n - 1].organizationId == org && ps[n - 1].status == 0 then [n - 1] else [])
  }

  /** The filter keeps exactly the active projects of the organisation. */
  lemma {:induction false} ProjectsOfMembers(org: nat, ps: seq<Project>, n: nat)
    requires n <= |ps|
    ensures forall p: nat :: p in ProjectsOf(org, ps, n) <==> p < n && ps[p].organizationId == org && ps[p].status == 0
  {
    if n > 0 {
      ProjectsOfMembers(org, ps, n - 1);
    }
  }

  /** One more project considered by the filter: run it when it passes. */
  lemma ProjectsOfStep(db: Db, org: nat, ps: seq<Project>, n: nat, faulty: set<nat>)
    requires n < |ps| == |db.projects|
    ensures ps[n].organizationId == org && ps[n].status == 0 ==>
      RunSchedule(db, ProjectsOf(org, ps, n + 1), faulty) == RunProject(RunSchedule(db, ProjectsOf(org, ps, n), faulty), n, faulty)
    ensures !(ps[n].organizationId == org && ps[n].status == 0) ==>
      ProjectsOf(org, ps, n + 1) == ProjectsOf(org, ps, n)
  {
    RunScheduleSnoc(db, ProjectsOf(org, ps, n), n, faulty);
  }

  /** The projects `migrate_all_orgs` visits, in visiting order. */
  function Schedule(orgs: seq<Organization>, ps: seq<Project>): (s: seq<nat>)
    ensures ValidSchedule(s, |ps|)
  {
    if orgs == [] then []
    else
      var org := orgs[|orgs| - 1];
      Schedule(orgs[..|orgs| - 1], ps) + (if org.status == 0 then ProjectsOf(org.id, ps, |ps|) else [])
  }

  lemma ScheduleSnoc(orgs: seq<Organization>, ps: seq<Project>, oi: nat)
    requires oi < |orgs|
    ensures Schedule(orgs[..oi + 1], ps) == Schedule(orgs[..oi], ps) +
      (if orgs[oi].status == 0 then ProjectsOf(orgs[oi].id, ps, |ps|) else [])
  {
    assert orgs[..oi + 1][..oi] == orgs[..oi];
  }

  /** A project is visited exactly when it is active and some active organisation owns it. */
  lemma {:induction false} ScheduleMembers(orgs: seq<Organization>, ps: seq<Project>, p: nat)
    ensures p in Schedule(orgs, ps) <==>
      p < |ps| && ps[p].status == 0 &&
      exists o | 0 <= o < |orgs| :: orgs[o].status == 0 && orgs[o].id == ps[p].organizationId
  {
    if orgs != [] {
      var init := orgs[..|orgs| - 1];
      ScheduleMembers(init, ps, p);
      ProjectsOfMembers(orgs[|orgs| - 1].id, ps, |ps|);
      if p < |ps| && ps[p].status == 0 {
        if exists o | 0 <= o < |orgs| :: orgs[o].status == 0 && orgs[o].id == ps[p].organizationId {
          var o :| 0 <= o < |orgs| && orgs[o].status == 0 && orgs[o].id == ps[p].organizationId;
          if o < |orgs| - 1 {
            assert init[o] == orgs[o];
          }
        }
        if exists o | 0 <= o < |init| :: init[o].status == 0 && init[o].id == ps[p].organizationId {
          var o :| 0 <= o < |init| && init[o].status == 0 && init[o].id == ps[p].organizationId;
          assert orgs[o] == init[o];
        }
      }
    }
  }

  lemma {:induction false} ProjectsOfShape(org: nat, ps: seq<Project>, qs: seq<Project>, n: nat)
    requires SameShape(ps, qs) && n <= |ps|
    ensures ProjectsOf(org, ps, n) == ProjectsOf(org, qs, n)
  {
    if n > 0 {
      ProjectsOfShape(org, ps, qs, n - 1);
    }
  }

  /** The visiting order does not depend on the flags, so a rerun visits the same projects. */
  lemma {:induction false} ScheduleShape(orgs: seq<Organization>, ps: seq<Project>, qs: seq<Project>)
    requires SameShape(ps, qs)
    ensures Schedule(orgs, ps) == Schedule(orgs, qs)
  {
    if orgs != [] {
      ScheduleShape(orgs[..|orgs| - 1], ps, qs);
      ProjectsOfShape(orgs[|orgs| - 1].id, ps, qs, |ps|);
    }
  }

  /** The ids of the projects the schedule visits. */
  function VisitedIds(ps: seq<Project>, sched: seq<nat>): set<nat>
    requires ValidSchedule(sched, |ps|)
  {
    if sched == [] then {} else VisitedIds(ps, sched[..|sched| - 1]) + {ps[sched[|sched| - 1]].id}
  }

  /**
   * Only active rules of visited projects are rewritten, and every rule the
   * run creates is an active rule of a visited project.
   */
  lemma {:induction false} RunTouchesOnlyScheduledRules(db: Db, sched: seq<nat>, faulty: set<nat>)
    requires ValidSchedule(sched, |db.projects|)
    ensures |RunSchedule(db, sched, faulty).rules| >= |db.rules|
    ensures forall i | 0 <= i < |db.rules| ::
      !(db.rules[i].status == 0 && db.rules[i].projectId in VisitedIds(db.projects, sched)) ==>
        RunSchedule(db, sched, faulty).rules[i] == db.rules[i]
    ensures forall i | |db.rules| <= i < |RunSchedule(db, sched, faulty).rules| ::
      RunSchedule(db, sched, faulty).rules[i].status == 0 &&
      RunSchedule(db, sched, faulty).rules[i].projectId in VisitedIds(db.projects, sched)
  {
    if sched != [] {
      var init := sched[..|sched| - 1];
      var q := sched[|sched| - 1];
      RunTouchesOnlyScheduledRules(db, init, faulty);
      var mid := RunSchedule(db, init, faulty);
      var qid := mid.projects[q].id;
      assert qid == db.projects[q].id;
      assert VisitedIds(db.projects, sched) == VisitedIds(db.projects, init) + {qid};
      if !Faults(mid.rules, qid, faulty) {
        MigrateProjectShape(mid.rules, qid);
      }
    }
  }

  /** The projects the run does not visit keep their flags. */
  lemma {:induction false} RunTouchesOnlyScheduledProjects(db: Db, sched: seq<nat>, faulty: set<nat>)
    requires ValidSchedule(sched, |db.projects|)
    ensures forall p | 0 <= p < |db.projects| && p !in sched ::
      RunSchedule(db, sched, faulty).projects[p] == db.projects[p]
  {
    if sched != [] {
      RunTouchesOnlyScheduledProjects(db, sched[..|sched| - 1], faulty);
      forall p | 0 <= p < |db.projects| && p !in sched
        ensures p !in sched[..|sched| - 1]
      {
      }
    }
  }

  /** The run sets `has_alert_filters` only on projects that had an active rule. */
  lemma {:induction false} FlagOnlyWithActiveRule(db: Db, sched: seq<nat>, faulty: set<nat>)
    requires ValidSchedule(sched, |db.projects|)
    ensures forall p | 0 <= p < |db.projects| ::
      RunSchedule(db, sched, faulty).projects[p].hasAlertFilters ==>
        db.projects[p].hasAlertFilters || HasActiveRule(db.rules, db.projects[p].id)
    ensures forall pid :: HasActiveRule(RunSchedule(db, sched, faulty).rules, pid) == HasActiveRule(db.rules, pid)
  {
    if sched != [] {
      var init := sched[..|sched| - 1];
      var q := sched[|sched| - 1];
      FlagOnlyWithActiveRule(db, init, faulty);
      var mid := RunSchedule(db, init, faulty);
      var qid := mid.projects[q].id;
      if !Faults(mid.rules, qid, faulty) {
        forall pid ensures HasActiveRule(MigrateProject(mid.rules, qid), pid) == HasActiveRule(mid.rules, pid) {
          HasActiveRulePreserved(mid.rules, qid, pid);
        }
      }
    }
  }

  /** The ids the run newly logged as failed. */
  function NewFailures(db: Db, sched: seq<nat>, faulty: set<nat>): seq<nat>
    requires ValidSchedule(sched, |db.projects|)
  {
    RunSchedule(db, sched, faulty).failed[|db.failed|..]
  }

  /** Visited project that did not fail: all active rules settled, flagged when it has one. */
  predicate Completed(db: Db, p: nat)
    requires p < |db.projects|
  {
    ProjectSettled(db.rules, db.projects[p].id) &&
    (HasActiveRule(db.rules, db.projects[p].id) ==> db.projects[p].hasAlertFilters)
  }

  /**
   * Fault isolation: a failure is logged and does not stop the run; every
   * visited project whose id was not logged ends completely migrated and
   * flagged, whichever projects before or after it failed.
   */
  lemma {:induction false} RunCompletes(db: Db, sched: seq<nat>, faulty: set<nat>)
    requires ValidSchedule(sched, |db.projects|)
    ensures forall k | 0 <= k < |sched| ::
      db.projects[sched[k]].id !in NewFailures(db, sched, faulty) ==>
        Completed(RunSchedule(db, sched, faulty), sched[k])
  {
    if sched != [] {
      var init := sched[..|sched| - 1];
      var q := sched[|sched| - 1];
      RunCompletes(db, init, faulty);
      var mid := RunSchedule(db, init, faulty);
      var last := RunSchedule(db, sched, faulty);
      var qid := mid.projects[q].id;
      var faults := Faults(mid.rules, qid, faulty);
      RunProjectOutcome(mid, q, faulty);
      assert NewFailures(db, sched, faulty) ==
        NewFailures(db, init, faulty) + (if faults then [qid] else []);
      forall k | 0 <= k < |sched| && db.projects[sched[k]].id !in NewFailures(db, sched, faulty)
        ensures Completed(last, sched[k])
      {
        var p := sched[k];
        var pid := db.projects[p].id;
        assert mid.projects[p].id == pid && last.projects[p].id == pid;
        if k < |sched| - 1 {
          assert init[k] == p;
          assert Completed(mid, p);
        }
        if !faults {
          HasActiveRulePreserved(mid.rules, qid, pid);
          if pid != qid {
            MigrateProjectFrame(mid.rules, qid, pid);
          }
        }
      }
    }
  }

  /** A run without exceptions logs nothing. */
  lemma {:induction false} FaultFreeRunLogsNothing(db: Db, sched: seq<nat>)
    requires ValidSchedule(sched, |db.projects|)
    ensures RunSchedule(db, sched, {}).failed == db.failed
  {
    if sched != [] {
      FaultFreeRunLogsNothing(db, sched[..|sched| - 1]);
    }
  }

  /** Visiting projects that are already complete changes nothing. */
  lemma {:induction false} RunOnCompletedIsIdentity(db: Db, sched: seq<nat>)
    requires ValidSchedule(sched, |db.projects|)
    requires forall k | 0 <= k < |sched| :: Completed(db, sched[k])
    ensures RunSchedule(db, sched, {}) == db
  {
    if sched != [] {
      var init := sched[..|sched| - 1];
      var q := sched[|sched| - 1];
      RunOnCompletedIsIdentity(db, init);
      assert Completed(db, q);
      SettledProjectUnchanged(db.rules, db.projects[q].id);
      assert db.projects[q := db.projects[q]] == db.projects;
    }
  }

  /** `migrate_all_orgs` as one function of the store. */
  function MigrateAllOrgs(orgs: seq<Organization>, db: Db, faulty: set<nat>): Db {
    RunSchedule(db, Schedule(orgs, db.projects), faulty)
  }

  /**
   * A run without exceptions completes every visited project, and running
   * the migration again afterwards changes nothing: it is idempotent.
   */
  lemma MigrationIdempotent(orgs: seq<Organization>, db: Db)
    ensures MigrateAllOrgs(orgs, MigrateAllOrgs(orgs, db, {}), {}) == MigrateAllOrgs(orgs, db, {})
  {
    var sched := Schedule(orgs, db.projects);
    var once := RunSchedule(db, sched, {});
    FaultFreeRunLogsNothing(db, sched);
    RunCompletes(db, sched, {});
    ScheduleShape(orgs, once.projects, db.projects);
    RunOnCompletedIsIdentity(once, sched);
  }

  /**
   * Re-running after a run in which some projects failed completes every
   * project the migration visits, logs nothing new, and leaves a store a
   * further run does not change.
   */
  lemma RerunRecovers(orgs: seq<Organization>, db: Db, faulty: set<nat>)
    ensures var twice := MigrateAllOrgs(orgs, MigrateAllOrgs(orgs, db, faulty), {});
      && twice.failed == MigrateAllOrgs(orgs, db, faulty).failed
      && (forall p | p in Schedule(orgs, db.projects) :: Completed(twice, p))
      && MigrateAllOrgs(orgs, twice, {}) == twice
  {
    var once := MigrateAllOrgs(orgs, db, faulty);
    ScheduleShape(orgs, once.projects, db.projects);
    var sched := Schedule(orgs, db.projects);
    FaultFreeRunLogsNothing(once, sched);
    RunCompletes(once, sched, {});
    MigrationIdempotent(orgs, once);
  }

  /** The store the migration runs against. */
  class Store {
    var organizations: seq<Organization>
    var projects: seq<Project>
    var rules: seq<Rule>
    /** Project ids reported by `logging.exception`. */
    var failed: seq<nat>

    constructor (organizations: seq<Organization>, projects: seq<Project>, rules: seq<Rule>)
      ensures this.organizations == organizations && this.projects == projects
      ensures this.rules == rules && this.failed == []
    {
      this.organizations := organizations;
      this.projects := projects;
      this.rules := rules;
      this.failed := [];
    }

    function Contents(): Db
      reads this
    {
      Db(projects, rules, failed)
    }

    /**
     * `migrate_project_alert_rules` inside its `transaction.atomic()`: the
     * active rules present when the query runs are migrated one by one and
     * the flag is set after each; when a rule raises, everything the
     * transaction did is rolled back and `ok` is false.
     */
    method MigrateProjectAlertRules(p: nat, faulty: set<nat>) returns (ok: bool)
      requires p < |projects|
      modifies this
      ensures organizations == old(organizations) && failed == old(failed)
      ensures ok <==> !Faults(old(rules), old(projects[p].id), faulty)
      ensures !ok ==> rules == old(rules) && projects == old(projects)
      ensures ok ==> rules == MigrateProject(old(rules), old(projects[p].id))
      ensures ok ==> projects == old(projects)[p := old(projects[p]).(hasAlertFilters :=
        old(projects[p].hasAlertFilters) || HasActiveRule(old(rules), old(projects[p].id)))]
    {
      var pid := projects[p].id;
      var savedRules, savedProjects := rules, projects;
      ghost var flag := projects[p].hasAlertFilters;
      var n := |rules|;
      var k := 0;
      while k < n
        invariant 0 <= k <= n == |savedRules|
        invariant savedRules == old(rules) && savedProjects == old(projects)
        invariant organizations == old(organizations) && failed == old(failed)
        invariant rules == RulesAfter(savedRules, k, pid)
        invariant projects == savedProjects[p := savedProjects[p].(hasAlertFilters := FlagAfter(savedRules, k, pid, flag))]
        invariant forall j | 0 <= j < k :: !(j in faulty && ActiveIn(savedRules[j], pid))
      {
        var rule := rules[k];
        if rule.projectId == pid && rule.status == 0 {
          if k in faulty {
            rules, projects := savedRules, savedProjects;
            assert k in faulty && ActiveIn(savedRules[k], pid);
            return false;
          }
          var strategy := GetMigrationFunc(rule);
          var outcome := Apply(strategy, rule);
          var extra := if outcome.created.Some? then [outcome.created.value] else [];
          rules := rules[k := outcome.rule] + extra;
          projects := projects[p := projects[p].(hasAlertFilters := true)];
        }
        k := k + 1;
      }
      ok := true;
    }

    /**
     * One iteration of the inner loop of `migrate_all_orgs`: the project's
     * transaction, and on an exception the project's id logged.
     */
    method MigrateProjectOrLog(p: nat, faulty: set<nat>)
      requires p < |projects|
      modifies this
      ensures organizations == old(organizations)
      ensures Contents() == RunProject(old(Contents()), p, faulty)
    {
      var ok := MigrateProjectAlertRules(p, faulty);
      if !ok {
        failed := failed + [projects[p].id];
      }
    }

    /**
     * The inner loop of `migrate_all_orgs`: the active projects of one
     * organisation, in order.
     */
    method MigrateOrgProjects(orgId: nat, faulty: set<nat>)
      modifies this
      ensures organizations == old(organizations)
      ensures Contents() == RunSchedule(old(Contents()), ProjectsOf(orgId, old(projects), |old(projects)|), faulty)
    {
      ghost var start := Contents();
      ghost var ps := projects;
      var pj := 0;
      while pj < |projects|
        invariant 0 <= pj <= |projects| == |ps|
        invariant organizations == old(organizations)
        invariant Contents() == RunSchedule(start, ProjectsOf(orgId, ps, pj), faulty)
      {
        ProjectsOfStep(start, orgId, ps, pj, faulty);
        assert projects[pj].organizationId == ps[pj].organizationId && projects[pj].status == ps[pj].status;
        if projects[pj].organizationId == orgId && projects[pj].status == 0 {
          MigrateProjectOrLog(pj, faulty);
        }
        pj := pj + 1;
      }
    }

    /**
     * `migrate_all_orgs`: every active organisation, every active project
     * of it; a project that fails is logged and the loop goes on.
     */
    method MigrateAllOrgs(faulty: set<nat>)
      modifies this
      ensures organizations == old(organizations)
      ensures Contents() == RunSchedule(old(Contents()), Schedule(organizations, old(projects)), faulty)
    {
      ghost var start := Contents();
      ghost var ps := projects;
      var oi := 0;
      while oi < |organizations|
        invariant 0 <= oi <= |organizations|
        invariant organizations == old(organizations)
        invariant Contents() == RunSchedule(start, Schedule(organizations[..oi], ps), faulty)
      {
        var org := organizations[oi];
        ScheduleSnoc(organizations, ps, oi);
        ghost var before := Schedule(organizations[..oi], ps);
        if org.status == 0 {
          ghost var mid := Contents();
          MigrateOrgProjects(org.id, faulty);
          ProjectsOfShape(org.id, mid.projects, ps, |ps|);
          RunScheduleAppend(start, before, ProjectsOf(org.id, ps, |ps|), faulty);
        } else {
          assert Schedule(organizations[..oi + 1], ps) == before;
        }
        oi := oi + 1;
      }
      assert organizations[..oi] == organizations;
    }
  }

}

=== FILE: rules.dfy ===
/**
 * Issue-alert rules and the per-rule part of the condition-to-filter
 * migration: the classifier `get_migration_func`, and the three transforms
 * `simple_migrate_alert_rule`, `split_alert_rule` and `modify_none_rule`,
 * each returning the rule as saved and the rule it creates, if any.
 */
module AlertRules {

  import opened Wrappers
  import opened Conditions

  /** The values "all", "any" and "none" of `action_match` / `filter_match`. */
  datatype MatchMode = MatchAll | MatchAny | MatchNone

  /** One entry of a rule's "actions" list, carried over untouched. */
  type Action = map<string, string>

  /**
   * A stored rule: its label (`name` here, `label` being a Dafny keyword),
   * owning project, environment and status, and the keys of its `data` that
   * the migration reads or writes. A key that is
   * missing from `data` (or holds null) is `None`; a missing "conditions"
   * list is the empty list, as `data.get("conditions") or []` reads it.
   */
  datatype Rule = Rule(
    name: string,
    projectId: nat,
    environmentId: Option<nat>,
    status: nat,
    actionMatch: Option<MatchMode>,
    filterMatch: Option<MatchMode>,
    conditions: seq<Condition>,
    actions: seq<Action>,
    frequency: Option<int>)

  /** The three functions `get_migration_func` can return. */
  datatype Strategy = Simple | Split | ModifyNone

  /** What applying a strategy leaves behind: the saved rule and the created one. */
  datatype Outcome = Outcome(rule: Rule, created: Option<Rule>)

  /** The decision of `get_migration_func`, stated over the whole condition list. */
  function Classify(r: Rule): Strategy {
    if r.actionMatch == Some(MatchNone) && HasOld(r.conditions) then ModifyNone
    else if r.actionMatch == Some(MatchAny) && HasMigratable(r.conditions) && HasOld(r.conditions) then Split
    else Simple
  }

  /**
   * `get_migration_func`: one pass over the conditions sets the two flags,
   * then the match mode picks the strategy.
   */
  method GetMigrationFunc(r: Rule) returns (s: Strategy)
    ensures s == ModifyNone <==> r.actionMatch == Some(MatchNone) && HasOld(r.conditions)
    ensures s == Split <==>
      r.actionMatch == Some(MatchAny) && HasMigratable(r.conditions) && HasOld(r.conditions)
    ensures s == Simple <==>
      !(r.actionMatch == Some(MatchNone) && HasOld(r.conditions)) &&
      !(r.actionMatch == Some(MatchAny) && HasMigratable(r.conditions) && HasOld(r.conditions))
    ensures s == Classify(r)
  {
    var cs := r.conditions;
    var hasOldConditions := false;
    var hasMigratedConditions := false;
    for i := 0 to |cs|
      invariant hasMigratedConditions <==> exists j | 0 <= j < i :: IsMigratable(cs[j].id)
      invariant hasOldConditions <==> exists j | 0 <= j < i :: IsOld(cs[j].id)
    {
      if IsMigratable(cs[i].id) {
        hasMigratedConditions := true;
      } else if !IsFilterId(cs[i].id) {
        hasOldConditions := true;
      }
    }
    if r.actionMatch == Some(MatchNone) {
      if hasOldConditions {
        return ModifyNone;
      }
    } else if r.actionMatch == Some(MatchAny) {
      if hasMigratedConditions && hasOldConditions {
        return Split;
      }
    }
    return Simple;
  }

  /**
   * `simple_migrate_alert_rule`: without a migratable condition nothing
   * changes; otherwise every condition is rewritten in place, the old
   * action match becomes the filter match, and "none" becomes "all".
   */
  function SimpleMigrateAlertRule(r: Rule): (o: Rule)
    ensures !HasMigratable(r.conditions) ==> o == r
    ensures HasMigratable(r.conditions) ==>
      && |o.conditions| == |r.conditions|
      && (forall i | 0 <= i < |r.conditions| :: o.conditions[i] == MigrateCondition(r.conditions[i]))
      && o.filterMatch == r.actionMatch
      && o.actionMatch == (if r.actionMatch == Some(MatchNone) then Some(MatchAll) else r.actionMatch)
    ensures o.(conditions := r.conditions, filterMatch := r.filterMatch, actionMatch := r.actionMatch) == r
    ensures !HasMigratable(o.conditions)
  {
    if HasMigratable(r.conditions) then
      r.(conditions := MigrateAll(r.conditions),
         filterMatch := r.actionMatch,
         actionMatch := if r.actionMatch == Some(MatchNone) then Some(MatchAll) else r.actionMatch)
    else
      r
  }

  /** The simple rewrite keeps the old conditions, in their order. */
  lemma SimpleKeepsTriggers(r: Rule)
    ensures Select(SimpleMigrateAlertRule(r).conditions, IsOld) == Select(r.conditions, IsOld)
  {
    if HasMigratable(r.conditions) {
      assert SimpleMigrateAlertRule(r).conditions == MigrateAll(r.conditions);
      OldConditionsSurviveRewrite(r.conditions);
    }
  }

  /**
   * `split_alert_rule`: the rule keeps only its old conditions and is
   * labelled " (1)"; a new rule " (2)" in the same project, with the same
   * actions, frequency and environment, gets the rewritten filter-like
   * conditions under an "any"/"any" match.
   */
  function SplitAlertRule(r: Rule): (o: (Rule, Rule))
    ensures o.0.conditions == Select(r.conditions, IsOld)
    ensures o.0.name == r.name + " (1)"
    ensures o.0.(conditions := r.conditions, name := r.name) == r
    ensures o.1.name == r.name + " (2)"
    ensures o.1.projectId == r.projectId && o.1.environmentId == r.environmentId && o.1.status == 0
    ensures o.1.actionMatch == Some(MatchAny) && o.1.filterMatch == Some(MatchAny)
    ensures o.1.actions == r.actions && o.1.frequency == r.frequency
    ensures o.1.conditions == MigrateAll(Select(r.conditions, IsFilterLike))
  {
    var filters := MigrateAll(Select(r.conditions, IsFilterLike));
    var triggers := Select(r.conditions, IsOld);
    var kept := r.(conditions := triggers, name := r.name + " (1)");
    var created := Rule(
      name := r.name + " (2)",
      projectId := r.projectId,
      environmentId := r.environmentId,
      status := 0,
      actionMatch := Some(MatchAny),
      filterMatch := Some(MatchAny),
      conditions := filters,
      actions := r.actions,
      frequency := r.frequency);
    (kept, created)
  }

  /**
   * A split separates the conditions: the kept rule holds only old
   * conditions, the created rule only filters. Before the rewrite the kept
   * list and the filter-like entries are the original list, each entry
   * exactly once; after it the two saved lists are the rewritten list.
   */
  lemma SplitSeparates(r: Rule)
    ensures forall c | c in SplitAlertRule(r).0.conditions :: IsOld(c.id)
    ensures forall c | c in SplitAlertRule(r).1.conditions :: IsFilterId(c.id)
    ensures multiset(SplitAlertRule(r).0.conditions) + multiset(Select(r.conditions, IsFilterLike))
      == multiset(r.conditions)
    ensures |SplitAlertRule(r).0.conditions| + |SplitAlertRule(r).1.conditions| == |r.conditions|
    ensures multiset(SplitAlertRule(r).0.conditions) + multiset(SplitAlertRule(r).1.conditions)
      == multiset(MigrateAll(r.conditions))
  {
    SelectMembers(r.conditions, IsOld);
    SelectPartition(r.conditions, IsOld, IsFilterLike);
    SelectPartition(MigrateAll(r.conditions), IsOld, IsFilterLike);
    OldConditionsSurviveRewrite(r.conditions);
    FilterLikeSurvivesRewrite(r.conditions);
    var moved := Select(r.conditions, IsFilterLike);
    SelectMembers(r.conditions, IsFilterLike);
    forall i | 0 <= i < |moved|
      ensures IsFilterId(MigrateAll(moved)[i].id)
    {
      assert moved[i] in moved;
    }
  }

  /**
   * `modify_none_rule`: every-event markers are dropped, the rest is
   * rewritten; the filters match "none" and the conditions "any".
   */
  function ModifyNoneRule(r: Rule): (o: Rule)
    ensures o.conditions == MigrateAll(Select(r.conditions, IsNotEveryEvent))
    ensures o.filterMatch == Some(MatchNone) && o.actionMatch == Some(MatchAny)
    ensures o.(conditions := r.conditions, filterMatch := r.filterMatch, actionMatch := r.actionMatch) == r
    ensures !HasMigratable(o.conditions)
  {
    r.(conditions := MigrateAll(Select(r.conditions, IsNotEveryEvent)),
       filterMatch := Some(MatchNone), actionMatch := Some(MatchAny))
  }

  /**
   * The "none" rewrite drops every every-event marker and keeps the other
   * old conditions, in their order.
   */
  lemma ModifyNoneKeepsTriggers(r: Rule)
    ensures forall c | c in ModifyNoneRule(r).conditions :: c.id != EveryEventCondition
    ensures Select(ModifyNoneRule(r).conditions, IsOld)
      == Select(Select(r.conditions, IsOld), IsNotEveryEvent)
  {
    var kept := Select(r.conditions, IsNotEveryEvent);
    SelectMembers(r.conditions, IsNotEveryEvent);
    MigrateAllKeepsEveryEvent(kept);
    OldConditionsSurviveRewrite(kept);
    SelectCommutes(r.conditions, IsOld, IsNotEveryEvent);
  }

  /** Calling the function `get_migration_func` picked: `migration_func(rule, Rule)`. */
  function Apply(s: Strategy, r: Rule): (o: Outcome)
    ensures !HasMigratable(o.rule.conditions)
    ensures o.created.Some? <==> s == Split
    ensures o.rule.projectId == r.projectId && o.rule.status == r.status
    ensures o.created.Some? ==>
      && o.created.value.projectId == r.projectId
      && o.created.value.status == 0
      && !HasMigratable(o.created.value.conditions)
  {
    match s
    case Simple => Outcome(SimpleMigrateAlertRule(r), None)
    case Split =>
      SplitSeparates(r);
      var (kept, created) := SplitAlertRule(r);
      Outcome(kept, Some(created))
    case ModifyNone => Outcome(ModifyNoneRule(r), None)
  }

  /** Classify, then apply: what the migration does to one stored rule. */
  function Migrate(r: Rule): Outcome {
    Apply(Classify(r), r)
  }

  /** A rule the migration leaves as it is and beside which it creates nothing. */
  predicate Settled(r: Rule) {
    Migrate(r) == Outcome(r, None)
  }

  /**
   * A rule is left alone exactly when no condition is migratable and it is
   * not a "none" rule holding an old condition.
   */
  lemma SettledIff(r: Rule)
    ensures Settled(r) <==>
      !HasMigratable(r.conditions) && !(r.actionMatch == Some(MatchNone) && HasOld(r.conditions))
  {
    if HasMigratable(r.conditions) && Classify(r) == Simple {
      MigrateAllChanges(r.conditions);
    }
  }

  /**
   * The migration is idempotent on a rule: a second pass over the saved
   * rule, and over the rule a split created, changes nothing and creates
   * nothing.
   */
  lemma MigrateIdempotent(r: Rule)
    ensures Settled(Migrate(r).rule)
    ensures Migrate(r).created.Some? ==> Settled(Migrate(r).created.value)
  {
    var o := Migrate(r);
    SettledIff(o.rule);
    if o.created.Some? {
      SettledIff(o.created.value);
    }
  }

}

=== FILE: wrappers.dfy ===
/** Optional values: a key that may be missing from a rule's stored data. */
module Wrappers {

  datatype Option<+T> = None | Some(value: T)

}
